=== FILE: README.md ===
# auth-prototype: authorization core in Dafny

A model of the `auth` service from auth-prototype. The service authorizes
requests using role- and access-based permissions over a relational store.
The model covers:

- the three request handlers, `checkAbility`, `register` and `login`;
- the helper methods `createRulesForUser`, `signToken`, `verifyToken`,
  `registerUser` and `verifyUser`;
- the first-start seeding in `started`;
- the five entities (`Action`, `Subject`, `Access`, `Role`, `User`) with
  their unique constraints and relations.

How the model is built:

- **The store.** The relational store is an immutable `Store` record. It
  holds one map per table (id to row) and the `users` id sequence. A
  handler that writes returns an `Outcome`, which pairs its result with the
  store after the call. A thrown error (a unique-constraint violation, a
  missing user) is a `Fault` in the `Err` arm of the result.
- **Invariants.** `Entities.WellFormed` collects the invariants the
  database schema keeps:
  - keys match ids;
  - every `@Unique` constraint;
  - every foreign key and join row refers to an existing row, with no
    duplicate join rows;
  - the id sequence is ahead of every user id.
- **Cryptography is symbolic.**
  - An argon2id hash is the term `Argon2id(salt, password)`. The salt is a
    parameter, standing in for the randomness of `hash`.
  - An HMAC is the term `Hmac(alg, key, header, payload)`.
  - So "only the key holder can produce a tag that verifies" and "a hash
    verifies exactly its own password" are facts the proofs use.
  - The signing key is the abstract constant `AuthService.ServiceKey`.
- **Permissions.** A CASL ability built from plain `{action, subject}` rules
  is a sequence of `Permission(action, subject)` name pairs. `can` is
  membership in that sequence.

Modules: `Results`, `Passwords`, `Jws` (the part of `jose` that is used),
`Entities`, `Abilities` (`createRulesForUser` and `every`/`can`),
`AuthService` (tokens, registration, login, `checkAbility`), `Seeding`
(`started`) and `Scenario` (one whole seed, register, login, check scenario).

Three behaviours of the code worth knowing:

- A valid token whose user no longer exists makes `createRulesForUser`
  dereference a missing row, so `checkAbility` fails with an error. The
  model gives `Err(UserNotFound(id))`, not a denial.
- Seeding checks each table only inside the branch of the one before it,
  so a store with some tables filled is seeded only partly.
- Rules are not de-duplicated. Membership makes duplicates and order
  irrelevant (`Abilities.OrderIrrelevant`).

## Model

| member | source | states |
|---|---|---|
| Passwords.Hash | auth-service/service.ts:163 | the stored hash keeps the salt it was made with and verifies the password it was made from |
| Passwords.VerifyHashIff | auth-service/service.ts:175 | a hash made from a password verifies a candidate exactly when the candidate is that password |
| Passwords.HashSalted | auth-service/service.ts:163 | the same password hashed with two different salts gives two different stored hashes |
| Jws.Sign | auth-service/service.ts:113-117 | a signed compact token carries the chosen algorithm and the payload, and its tag is the HMAC over that header and payload under the given key |
| Jws.JwtVerify | auth-service/service.ts:124 | the library accepts a token exactly when it is compact, names an HMAC algorithm and its tag is the HMAC of its header and payload under the key; on success it hands back that payload and header |
| Jws.SignVerifies | auth-service/service.ts:113-124 | any token signed under the key with an HMAC algorithm is accepted and yields its payload |
| Jws.AcceptedIffSigned | auth-service/service.ts:124 | the library accepts a token exactly when it equals the signature of its own payload under the key with its own HMAC algorithm |
| AuthService.SignToken | auth-service/service.ts:113-117 | an issued token is compact, its header names HS256 and its payload is the given claims |
| AuthService.VerifyToken | auth-service/service.ts:119-130 | returns claims exactly when the library accepts the token and its header names HS256, and those claims are the token's payload; every other input, malformed text included, gives nothing |
| AuthService.TokenRoundTrip | auth-service/service.ts:113-130 | verifying an issued token gives back the claims it was issued for |
| AuthService.VerifyAcceptsOnlyIssued | auth-service/service.ts:113-130 | a token verifies to some claims exactly when it is the token the service issues for those claims |
| AuthService.JwtVerifySomeShape | auth-service/service.ts:124 | any token the library accepts under the service key is the key's signature of its own payload |
| AuthService.AlgorithmPinned | auth-service/service.ts:124-125 | a token naming any algorithm other than HS256 is rejected, including an HS384 token that the library itself accepts |
| AuthService.TamperRejected | auth-service/service.ts:119-129 | an issued tag moved onto other claims is rejected, and so are the right claims carrying any other tag |
| Abilities.RoleAccessIds | auth-service/service.ts:101 | the flattened role accesses are exactly the accesses of the listed roles, and all of them exist |
| Abilities.PermissionOf | auth-service/service.ts:106-109 | the pair an access contributes is its action's name and its subject's name, not their ids |
| Abilities.PermissionIdentifiesAccess | auth-service/entity/Access.ts:12-13 | two stored accesses contribute the same pair exactly when they are the same access |
| Abilities.LoadedAccessIds | auth-service/service.ts:98-103 | the loaded accesses all exist and are, as a set, the user's direct accesses together with every access of every role the user holds |
| Abilities.RulesOf | auth-service/service.ts:105-110 | one rule per loaded access, and a rule is present exactly when some loaded access has that action name and subject name |
| Abilities.RulesMatchCapabilities | auth-service/service.ts:98-110 | the built rules, read as a set, are the name pairs of the union of the user's direct accesses and the accesses of all the user's roles |
| Abilities.CreateRulesForUser | auth-service/service.ts:85-111 | a missing user gives `UserNotFound`; otherwise the rules hold exactly the user's capabilities (direct accesses and role accesses) |
| Abilities.Can | auth-service/service.ts:42 | a pair is granted exactly when some rule has that action and that subject |
| Abilities.Every | auth-service/service.ts:42 | the check allows exactly when every requested pair is among the rules |
| Abilities.EveryIffCapable | auth-service/service.ts:39-43 | for a stored user the decision is "every requested pair is a capability"; an empty request is allowed and one missing pair denies |
| Abilities.OrderIrrelevant | auth-service/service.ts:98-109 | two users holding the same roles and accesses get the same decision, whatever the order of their lists and however their direct and role accesses overlap |
| AuthService.CheckAbility | auth-service/service.ts:30-44 | an invalid token is denied without looking at the store; a valid token for a missing user fails with `UserNotFound`; otherwise the reply carries the token's user id and allows exactly when every requested pair is a capability of that user |
| AuthService.Found | auth-service/service.ts:142-146 | the rows found are exactly the stored rows whose id was asked for, each once |
| AuthService.FoundCount | auth-service/service.ts:141-160 | the rows found for a list of ids are never more than the list, and exactly as many only when the list has no repeats and names existing rows |
| AuthService.DistinctCons | auth-service/service.ts:141-160 | a list starting with `x` has no repeats exactly when the rest has none and does not hold `x` |
| AuthService.ResolveIds | auth-service/service.ts:141-161 | the lookup succeeds exactly when the ids are resolvable (absent, empty, or without repeats and all existing), and then yields those ids, each once and each existing |
| AuthService.RegisterUser | auth-service/service.ts:132-171 | gives null, with the store untouched, exactly when a role or access list names a missing id or repeats one; otherwise fails with `DuplicateUsername` exactly when the username is taken, else saves a user with the next id, the hashed password and exactly the listed roles and accesses; only the users table and its sequence change |
| AuthService.RepeatedIdRejected | auth-service/service.ts:141-150 | asking for the same role twice rejects the registration and leaves the store as it was |
| AuthService.RegisterUserSaves | auth-service/service.ts:163-170 | with resolvable lists and a fresh username, the result is exactly the new user with the next id and the store with that user added |
| AuthService.RegisterUserPreservesWellFormed | auth-service/entity/User.ts:13-31 | registration keeps every unique constraint and reference of the store |
| AuthService.SaveUserPreservesWellFormed | auth-service/entity/User.ts:13-31 | saving a user with the next id, a fresh username and existing roles and accesses keeps the store well formed |
| AuthService.Register | auth-service/service.ts:54-64 | returns null exactly when a list does not resolve, fails with `DuplicateUsername` exactly when the lists resolve and the username is taken, and otherwise returns the next id, under which it stores a user with that username, the hash of the password and exactly the requested roles and accesses, with no other change to the store; a null or failed reply leaves the store as it was; the store stays well formed |
| AuthService.VerifyUser | auth-service/service.ts:173-179 | returns a user exactly when a stored user has that username and the password verifies against its hash; the user returned is that stored row, holds that username, and its hash verifies the password |
| AuthService.Login | auth-service/service.ts:67-80 | gives no token exactly when no user has that username with a matching password; a token it gives verifies to that user's id and username |
| AuthService.LoginUniformFailure | auth-service/service.ts:69-79 | an unknown username and a wrong password produce the same null reply |
| AuthService.LoginThenCheck | auth-service/service.ts:30-80 | a user who logs in with the right password receives a token on which `checkAbility` decides by that user's capabilities |
| AuthService.RegisterLoginCheck | auth-service/service.ts:30-80 | a freshly registered user can log in with the password given at registration, and checks on the token it receives are decided by the capability set of the user stored under the new id |
| Entities.FindByUsername | auth-service/service.ts:174 | finds the user row holding that username exactly when one exists |
| Entities.ActionAccesses | auth-service/entity/Action.ts:20-21 | an action's accesses are exactly the stored accesses pointing at that action |
| Entities.SubjectAccesses | auth-service/entity/Subject.ts:20-21 | a subject's accesses are exactly the stored accesses pointing at that subject |
| Entities.InverseSidesPartition | auth-service/entity/Access.ts:22-26 | every access appears on the inverse side of exactly one action and exactly one subject |
| Entities.AccessDeterminedByNames | auth-service/entity/Access.ts:12-13 | two accesses with the same action name and subject name are the same access |
| Entities.UsernameLookupUnique | auth-service/entity/User.ts:13 | a username identifies at most one user row |
| Seeding.SeedUsers | auth-service/service.ts:236-266 | seeding the users touches only the users table and its sequence |
| Seeding.Started | auth-service/service.ts:182-271 | does nothing when actions already exist, and always leaves at least one action |
| Seeding.StartedPreservesWellFormed | auth-service/service.ts:185-255 | first start keeps the store well formed, whichever tables were already filled |
| Seeding.SeedingIdempotent | auth-service/service.ts:185 | starting again after a start changes nothing |
| Seeding.StartedFromEmpty | auth-service/service.ts:185-255 | from an empty store, first start succeeds and yields exactly the seeded tables and three users |
| Seeding.SeededTables | auth-service/service.ts:186-234 | the seeded store holds action `read`, subjects `book`, `magazine` and `report`, the three `read …` accesses and role `employee` holding `read report` |
| Seeding.SeededCapabilities | auth-service/service.ts:236-255 | bookReader may only `read book`, magazineReader only `read magazine`, and reportReader only `read report`, and reportReader gets it through the `employee` role |
| Scenario.ReadBookScenario | auth-service/service.ts:30-80 | after seeding an empty store, a user registered with the `read book` access logs in and is allowed `read book` and refused `write book` |

## Left out

- Argon2 and HMAC internals: both are symbolic terms. The hash salt is a parameter instead of fresh randomness, and the secret key's value (`'secret'`) is an abstract constant.
- JWT claim checks (`exp`, `nbf`, `iat`), `crit` headers and JSON payload parsing in `jwtVerify`: the service never sets them, and a token is modelled as already split into header, payload and tag.
- CASL beyond plain rules (`manage`/`all` wildcards, conditions, fields, inverted rules): the service builds only plain `{action, subject}` rules.
- TypeORM mechanics (connection life cycle, eager loading, row order, `find` with a list of `where` clauses): the model uses the rows and relations only. A saved list keeps the order it was requested in, which the database does not promise but no decision depends on.
- Nullable relation columns: `Access.action` and `Access.subject` are `@ManyToOne` columns, which the database lets be null, but the model makes them required ids. Every access the service itself writes (the seeded ones) has both, and an access without one would make `createRulesForUser` throw when it reads the names, a case left out of the model.
- Ids used up by a failed insert: on `DuplicateUsername` the model leaves the users sequence where it was, as in a database that gives an id back when the insert is rolled back. PostgreSQL sequences and MySQL auto-increment do not give it back, so there the next user would get a later id. The database engine is configured outside the service, and no decision depends on which ids are used.
- Explicit ids at seeding advance no sequence: seeding writes rows with ids 1, 2 and 3, and only the users table's sequence is modelled.
- The `console.dir` print of the seeded users: it only prints. A seed registration that returns null makes that print throw, which is modelled as `NullUser`.
- `stopped` and the connection handle: I/O only.
- Moleculer parameter validation: requests are typed in the model, so a request with a missing or wrongly typed field cannot be expressed.
- Non-integer and out-of-range ids: ids are unbounded integers in the model. Validation with `items: 'number'` also lets through numbers such as `1.5` or `2**40`. On a 32-bit integer column the `find` for such an id throws, where the model answers null for an id that is not stored. The users sequence is unbounded too, while a 32-bit `serial` column runs out at 2^31-1.
- Username collation: usernames are compared by exact string equality, as under a binary collation such as PostgreSQL's and SQLite's defaults. Under a case-insensitive collation (MySQL's and SQL Server's defaults), "Alice" and "alice" are the same value for `@Unique(['username'])` and for `findOne({ username })`. Then registering "Alice" fails with a duplicate when "alice" is stored, and logging in as "ALICE" with alice's password returns a token carrying the stored name "alice". The model does neither.
- The gateway (`gateway/src`): outside the service.
- Concurrency between handlers: every handler is one atomic step on the store.
- Seeding.Started: stated per outcome (no-op on a seeded store, full result from an empty one) rather than for every partly filled store.

=== FILE: abilities.dfy ===
/** The permission aggregator and ability evaluator: `createRulesForUser`
    and the `abilities.every(a => rules.can(a.action, a.subject))` decision
    of `checkAbility`.

    A CASL rule and an ability query are both an (action name, subject name)
    pair.  `can` is exact membership of the pair among the rules; CASL's
    `manage` and `all` wildcards are not part of this model. */
module Abilities {

  import opened Results
  import opened Entities

  /** A rule `{ action, subject }`, or a requested ability of the same shape. */
  datatype Permission = Permission(action: string, subject: string)

  /** The pair an access contributes: its action's and its subject's names,
      not their ids. */
  function PermissionOf(st: Store, a: Access): (p: Permission)
    requires a.action in st.actions && a.subject in st.subjects
    ensures p.action == st.actions[a.action].name && p.subject == st.subjects[a.subject].name
  {
    Permission(st.actions[a.action].name, st.subjects[a.subject].name)
  }

  /** `roles.map(r => r.accesses).flat()`, as access ids: every access of
      every listed role, role by role. */
  function RoleAccessIds(st: Store, roles: seq<Id>): (ids: seq<Id>)
    requires RolesResolve(st) && RoleIdsResolve(st, roles)
    ensures AccessIdsResolve(st, ids)
    ensures forall k :: k in ids <==> exists r :: r in roles && k in st.roles[r].accesses
  {
    if roles == [] then []
    else
      var rest := RoleAccessIds(st, roles[1..]);
      assert forall r :: r in roles <==> r == roles[0] || r in roles[1..] by {
        assert roles == [roles[0]] + roles[1..];
      }
      st.roles[roles[0]].accesses + rest
  }

  /** The accesses `createRulesForUser` loads for a user, as ids: the direct
      accesses first, then the accesses of the user's roles. */
  function LoadedAccessIds(st: Store, u: User): (ids: seq<Id>)
    requires RolesResolve(st) && UserResolves(st, u)
    ensures AccessIdsResolve(st, ids)
    ensures forall k :: k in ids <==> k in EffectiveAccessIds(st, u)
  {
    var ids := u.accesses + (if |u.roles| > 0 then RoleAccessIds(st, u.roles) else []);
    assert forall k :: k in ids <==> k in EffectiveAccessIds(st, u) by {
      forall k
        ensures k in ids <==> k in EffectiveAccessIds(st, u)
      {
        if |u.roles| > 0 && k in RoleAccessIds(st, u.roles) {
          var r :| r in u.roles && k in st.roles[r].accesses;
        }
      }
    }
    ids
  }

  /** `accesses.map(a => ({ action: a.action.name, subject: a.subject.name }))`,
      over the loaded accesses' ids.  A pair is a rule exactly when some
      listed access contributes it. */
  function RulesOf(st: Store, ids: seq<Id>): (rules: seq<Permission>)
    requires AccessesResolve(st) && AccessIdsResolve(st, ids)
    ensures |rules| == |ids|
    ensures forall p :: p in rules <==> exists k :: k in ids && p == PermissionOf(st, st.accesses[k])
  {
    if ids == [] then []
    else
      assert forall k :: k in ids <==> k == ids[0] || k in ids[1..] by {
        assert ids == [ids[0]] + ids[1..];
      }
      [PermissionOf(st, st.accesses[ids[0]])] + RulesOf(st, ids[1..])
  }

  /** The ids of the accesses a user is granted, as a set: the direct ones
      and every access of every role the user holds, one level deep. */
  ghost function EffectiveAccessIds(st: Store, u: User): set<Id>
  {
    (set k | k in u.accesses) + (set r, k | r in u.roles && r in st.roles && k in st.roles[r].accesses :: k)
  }

  /** The user's capability set: the pairs of the effective accesses. */
  ghost function Capabilities(st: Store, u: User): set<Permission>
    requires AccessesResolve(st)
  {
    set k | k in EffectiveAccessIds(st, u) && k in st.accesses :: PermissionOf(st, st.accesses[k])
  }

  /** The rules built for a user hold exactly the pairs of the capability
      set: order and repetitions are the only differences. */
  lemma RulesMatchCapabilities(st: Store, u: User)
    requires WellFormed(st) && UserResolves(st, u)
    ensures forall p :: p in RulesOf(st, LoadedAccessIds(st, u)) <==> p in Capabilities(st, u)
  {
  }

  /** Two stored accesses contribute the same pair exactly when they are
      the same access: the name pair identifies the access. */
  lemma PermissionIdentifiesAccess(st: Store, j: Id, k: Id)
    requires WellFormed(st)
    requires j in st.accesses && k in st.accesses
    ensures PermissionOf(st, st.accesses[j]) == PermissionOf(st, st.accesses[k]) <==> j == k
  {
    if PermissionOf(st, st.accesses[j]) == PermissionOf(st, st.accesses[k]) {
      AccessDeterminedByNames(st, j, k);
    }
  }

  /** `createRulesForUser(id)`: the rules of the user stored under `id`, or
      the fault the source throws when no such user exists. */
  function CreateRulesForUser(st: Store, id: Id): (r: Result<seq<Permission>, Fault>)
    requires WellFormed(st)
    ensures r.Err? <==> id !in st.users
    ensures r.Err? ==> r.error == UserNotFound(id)
    ensures r.Ok? ==> forall p :: p in r.value <==> p in Capabilities(st, st.users[id])
  {
    if id !in st.users then Err(UserNotFound(id))
    else
      var u := st.users[id];
      RulesMatchCapabilities(st, u);
      Ok(RulesOf(st, LoadedAccessIds(st, u)))
  }

  /** `rules.can(action, subject)`: some rule grants exactly this pair. */
  function Can(rules: seq<Permission>, action: string, subject: string): (granted: bool)
    ensures granted <==> exists i :: 0 <= i < |rules| && rules[i].action == action && rules[i].subject == subject
  {
    Permission(action, subject) in rules
  }

  /** `abilities.every(a => rules.can(a.action, a.subject))`. */
  function Every(rules: seq<Permission>, abilities: seq<Permission>): (allowed: bool)
    ensures allowed <==> forall i :: 0 <= i < |abilities| ==> abilities[i] in rules
  {
    if abilities == [] then true
    else Can(rules, abilities[0].action, abilities[0].subject) && Every(rules, abilities[1..])
  }

  /** The decision for a stored user: every requested pair is in the user's
      capability set.  No request at all is allowed; one missing pair is
      enough to deny. */
  lemma EveryIffCapable(st: Store, id: Id, abilities: seq<Permission>)
    requires WellFormed(st) && id in st.users
    ensures (Every(CreateRulesForUser(st, id).value, abilities)
             <==> forall i :: 0 <= i < |abilities| ==> abilities[i] in Capabilities(st, st.users[id]))
    ensures Every(CreateRulesForUser(st, id).value, [])
    ensures (exists i :: 0 <= i < |abilities| && abilities[i] !in Capabilities(st, st.users[id]))
              ==> !Every(CreateRulesForUser(st, id).value, abilities)
  {
  }

  /** Two users holding the same roles and direct accesses, in whatever order
      and however their direct and role accesses overlap, get the same answer
      to every request. */
  lemma OrderIrrelevant(st: Store, u1: User, u2: User, abilities: seq<Permission>)
    requires WellFormed(st) && UserResolves(st, u1) && UserResolves(st, u2)
    requires forall r :: r in u1.roles <==> r in u2.roles
    requires forall k :: k in u1.accesses <==> k in u2.accesses
    ensures Every(RulesOf(st, LoadedAccessIds(st, u1)), abilities) == Every(RulesOf(st, LoadedAccessIds(st, u2)), abilities)
  {
    forall k | k in EffectiveAccessIds(st, u1)
      ensures k in EffectiveAccessIds(st, u2)
    {
      if k !in u1.accesses {
        var r :| r in u1.roles && r in st.roles && k in st.roles[r].accesses;
        assert r in u2.roles;
      }
    }
    forall k | k in EffectiveAccessIds(st, u2)
      ensures k in EffectiveAccessIds(st, u1)
    {
      if k !in u2.accesses {
        var r :| r in u2.roles && r in st.roles && k in st.roles[r].accesses;
        assert r in u1.roles;
      }
    }
    assert EffectiveAccessIds(st, u1) == EffectiveAccessIds(st, u2);
    RulesMatchCapabilities(st, u1);
    RulesMatchCapabilities(st, u2);
  }
}

=== FILE: auth_service.dfy ===
/** The `auth` service: its three remotely callable handlers (`checkAbility`,
    `register`, `login`) and the methods they use (`signToken`,
    `verifyToken`, `registerUser`, `verifyUser`).

    Every operation is one sequential step over the store.  A handler that
    reads only returns its reply; one that may write returns an `Outcome`
    holding the reply, or the fault it throws, together with the store after
    the call. */
module AuthService {

  import opened Results
  import opened Passwords
  import opened Jws
  import opened Entities
  import opened Abilities

  /** The reply, or the thrown fault, and the store afterwards. */
  datatype Outcome<+T> = Outcome(result: Result<T, Fault>, store: Store)

  /** What `checkAbility` returns: `false`, or `{ userId, allowed }`. */
  datatype CheckReply = Denied | Decision(userId: Id, allowed: bool)

  /** The service's fixed signing secret.  Its value is left abstract. */
  const ServiceKey: Key

  // ---------------------------------------------------------------- tokens

  /** `signToken(payload)`: the header is always `{ alg: 'HS256' }` and the
      key is always the service key. */
  function SignToken(claims: Claims): (t: Token)
    ensures t.Compact? && t.header == Header(HS256) && t.payload == claims
  {
    Sign(ServiceKey, HS256, claims)
  }

  /** `verifyToken(token)`: the payload when the library accepts the token
      under the service key and the header names HS256; `None` for every
      other token, including those the library would throw on. */
  function VerifyToken(token: Token): (r: Option<Claims>)
    ensures r.Some? <==> JwtVerify(ServiceKey, token).Some? && token.header.alg == HS256
    ensures r.Some? ==> r.value == token.payload
  {
    match JwtVerify(ServiceKey, token)
    case None => None
    case Some(verified) =>
      if verified.protectedHeader.alg != HS256 then None else Some(verified.payload)
  }

  /** Round trip: a token the service signs verifies to its claims. */
  lemma TokenRoundTrip(claims: Claims)
    ensures VerifyToken(SignToken(claims)) == Some(claims)
  {
  }

  /** The only token that verifies to given claims is the one the service
      signs for them: a token is accepted exactly when it was issued. */
  lemma VerifyAcceptsOnlyIssued(token: Token, claims: Claims)
    ensures VerifyToken(token) == Some(claims) <==> token == SignToken(claims)
  {
    if VerifyToken(token) == Some(claims) {
      JwtVerifySomeShape(token);
    }
  }

  /** The shape of a token the library accepts under the service key. */
  lemma JwtVerifySomeShape(token: Token)
    requires JwtVerify(ServiceKey, token).Some?
    ensures token == Sign(ServiceKey, token.header.alg, token.payload)
  {
    AcceptedIffSigned(ServiceKey, token);
  }

  /** Algorithm pinning: a token whose header names any algorithm but HS256
      is refused, even one the library itself accepts, such as an HS384
      token signed with the service key. */
  lemma AlgorithmPinned(token: Token, claims: Claims)
    ensures token.Compact? && token.header.alg != HS256 ==> VerifyToken(token).None?
    ensures JwtVerify(ServiceKey, Sign(ServiceKey, HS384, claims)).Some?
    ensures VerifyToken(Sign(ServiceKey, HS384, claims)).None?
  {
  }

  /** Tamper rejection: replacing the payload or the signature of an issued
      token by a different one makes verification fail. */
  lemma TamperRejected(claims: Claims, other: Claims, forged: Mac)
    requires other != claims
    requires forged != SignToken(claims).signature
    ensures VerifyToken(Compact(Header(HS256), other, SignToken(claims).signature)).None?
    ensures VerifyToken(Compact(Header(HS256), claims, forged)).None?
  {
  }

  // ------------------------------------------------------------- abilities

  /** The `checkAbility` handler.  An unverifiable token is refused before
      any store access; otherwise the claimed user's rules decide every
      requested pair at once, and a claimed id with no stored user throws. */
  function CheckAbility(st: Store, token: Token, abilities: seq<Permission>): (r: Result<CheckReply, Fault>)
    requires WellFormed(st)
    ensures VerifyToken(token).None? ==> r == Ok(Denied)
    ensures VerifyToken(token).Some? ==>
              var id := VerifyToken(token).value.id;
              && (id !in st.users ==> r == Err(UserNotFound(id)))
              && (id in st.users ==>
                    r == Ok(Decision(id, forall i :: 0 <= i < |abilities| ==>
                                           abilities[i] in Capabilities(st, st.users[id]))))
  {
    match VerifyToken(token)
    case None => Ok(Denied)
    case Some(payload) =>
      var userId := payload.id;
      match CreateRulesForUser(st, userId)
      case Err(fault) => Err(fault)
      case Ok(rules) =>
        EveryIffCapable(st, userId, abilities);
        Ok(Decision(userId, Every(rules, abilities)))
  }

  // ---------------------------------------------------------- registration

  /** The rows `find({ where: ids.map(id => ({ id })) })` returns, by id. */
  function Found(keys: set<Id>, ids: seq<Id>): (found: set<Id>)
    ensures found <= keys
    ensures forall k :: k in found <==> k in keys && k in ids
  {
    set k | k in ids && k in keys
  }

  /** A requested id list registration accepts: absent, or every id stored
      and none repeated. */
  ghost predicate Resolvable(keys: set<Id>, requested: Option<seq<Id>>)
  {
    requested.None? || (Distinct(requested.value) && forall k :: k in requested.value ==> k in keys)
  }

  /** `find` can never return more rows than ids were asked for, and returns
      as many exactly when every id is stored and no id repeats. */
  lemma {:induction false} FoundCount(keys: set<Id>, ids: seq<Id>)
    ensures |Found(keys, ids)| <= |ids|
    ensures |Found(keys, ids)| == |ids| <==> Distinct(ids) && forall k :: k in ids ==> k in keys
  {
    if ids != [] {
      var x, rest := ids[0], ids[1..];
      assert ids == [x] + rest;
      FoundCount(keys, rest);
      assert forall k :: k in ids <==> k == x || k in rest;
      DistinctCons(x, rest);
      if x in keys && x !in rest {
        assert Found(keys, ids) == Found(keys, rest) + {x};
      } else {
        assert Found(keys, ids) == Found(keys, rest);
      }
    }
  }

  /** A list with a head is distinct when its tail is and the head does not
      occur in the tail. */
  lemma DistinctCons(x: Id, rest: seq<Id>)
    ensures Distinct([x] + rest) <==> x !in rest && Distinct(rest)
  {
    var s := [x] + rest;
    if Distinct(s) {
      forall i, j | 0 <= i < j < |rest| ensures rest[i] != rest[j] {
        assert s[i + 1] == rest[i] && s[j + 1] == rest[j];
      }
      forall j | 0 <= j < |rest| ensures rest[j] != x {
        assert s[0] == x && s[j + 1] == rest[j];
      }
    }
  }

  /** The ids registration stores for one relation: none when the list is
      absent or empty, the list itself when `find` resolves all of it, and
      `None` (the call returns `null`) when `find` returns fewer rows. */
  function ResolveIds(keys: set<Id>, requested: Option<seq<Id>>): (r: Option<seq<Id>>)
    ensures r.Some? <==> Resolvable(keys, requested)
    ensures r.Some? ==> Distinct(r.value) && forall k :: k in r.value <==> requested.Some? && k in requested.value
    ensures r.Some? ==> forall k :: k in r.value ==> k in keys
  {
    if requested.None? || |requested.value| == 0 then Some([])
    else
      FoundCount(keys, requested.value);
      if |Found(keys, requested.value)| < |requested.value| then None
      else Some(requested.value)
  }

  /** `registerUser`: role ids are resolved first, then access ids; if either
      list does not resolve completely the call returns `null` and writes
      nothing.  Otherwise a user with the hashed password and the resolved
      relations is saved under the next id, unless the username is taken, in
      which case the unique constraint makes the save throw. */
  function RegisterUser(st: Store, username: string, password: string,
                        roles: Option<seq<Id>>, accesses: Option<seq<Id>>, salt: Salt): (o: Outcome<Option<User>>)
    requires SequenceAhead(st)
    ensures o.result == Ok(None) <==> !Resolvable(st.roles.Keys, roles) || !Resolvable(st.accesses.Keys, accesses)
    ensures o.result.Err? <==> Resolvable(st.roles.Keys, roles) && Resolvable(st.accesses.Keys, accesses)
                                 && exists k :: k in st.users && st.users[k].username == username
    ensures o.result.Err? ==> o.result.error == DuplicateUsername(username)
    ensures o.result != Ok(None) && o.result.Ok? ==> RegisteredAsAsked(st, o, username, password, roles, accesses, salt)
    ensures !o.result.Ok? || o.result.value.None? ==> o.store == st
    ensures o.store.(users := st.users, nextUserId := st.nextUserId) == st
    ensures SequenceAhead(o.store)
  {
    var foundRoles := ResolveIds(st.roles.Keys, roles);
    if foundRoles.None? then Outcome(Ok(None), st)
    else
      var foundAccesses := ResolveIds(st.accesses.Keys, accesses);
      if foundAccesses.None? then Outcome(Ok(None), st)
      else
        var user := User(st.nextUserId, username, Hash(password, salt), foundRoles.value, foundAccesses.value);
        if exists k :: k in st.users && st.users[k].username == username then
          Outcome(Err(DuplicateUsername(username)), st)
        else
          var st' := st.(users := st.users[user.id := user], nextUserId := st.nextUserId + 1);
          Outcome(Ok(Some(user)), st')
  }

  /** One id asked for twice is enough to reject the whole registration,
      since `find` returns the row once. */
  lemma RepeatedIdRejected(st: Store, username: string, password: string,
                           roles: seq<Id>, accesses: Option<seq<Id>>, salt: Salt, i: nat, j: nat)
    requires SequenceAhead(st)
    requires i < j < |roles| && roles[i] == roles[j]
    ensures RegisterUser(st, username, password, Some(roles), accesses, salt) == Outcome(Ok(None), st)
  {
  }

  /** What a successful registration saved: a fresh user with the given
      username, the hash of the password (never the password), exactly the
      requested roles and accesses, and nothing else changed. */
  ghost predicate RegisteredAsAsked(st: Store, o: Outcome<Option<User>>, username: string, password: string,
                                    roles: Option<seq<Id>>, accesses: Option<seq<Id>>, salt: Salt)
  {
    && o.result.Ok? && o.result.value.Some?
    && var u := o.result.value.value;
    && u.id == st.nextUserId && u.id !in st.users
    && u.username == username
    && u.password == Hash(password, salt)
    && (forall r :: r in u.roles <==> roles.Some? && r in roles.value)
    && (forall k :: k in u.accesses <==> accesses.Some? && k in accesses.value)
    && o.store == st.(users := st.users[u.id := u], nextUserId := st.nextUserId + 1)
  }

  /** The ids of an optional list, none when it is absent. */
  function Listed(ids: Option<seq<Id>>): seq<Id>
  {
    if ids.None? then [] else ids.value
  }

  /** A registration whose ids all resolve, without repeats, and whose
      username is free saves exactly the requested user under the next id. */
  lemma RegisterUserSaves(st: Store, username: string, password: string,
                                             roles: Option<seq<Id>>, accesses: Option<seq<Id>>, salt: Salt)
    requires SequenceAhead(st)
    requires Resolvable(st.roles.Keys, roles) && Resolvable(st.accesses.Keys, accesses)
    requires forall k :: k in st.users ==> st.users[k].username != username
    ensures var u := User(st.nextUserId, username, Hash(password, salt), Listed(roles), Listed(accesses));
            RegisterUser(st, username, password, roles, accesses, salt)
              == Outcome(Ok(Some(u)), st.(users := st.users[u.id := u], nextUserId := st.nextUserId + 1))
  {
    if roles.Some? {
      FoundCount(st.roles.Keys, roles.value);
    }
    if accesses.Some? {
      FoundCount(st.accesses.Keys, accesses.value);
    }
  }

  /** Registration keeps the store well formed: it saves only a user whose
      relations resolve, under a fresh id and a free username. */
  lemma RegisterUserPreservesWellFormed(st: Store, username: string, password: string,
                                        roles: Option<seq<Id>>, accesses: Option<seq<Id>>, salt: Salt)
    requires WellFormed(st)
    ensures WellFormed(RegisterUser(st, username, password, roles, accesses, salt).store)
  {
    var o := RegisterUser(st, username, password, roles, accesses, salt);
    if o.result.Ok? && o.result.value.Some? {
      SaveUserPreservesWellFormed(st, o.result.value.value);
    }
  }

  /** Saving a user whose relations resolve, whose id is the next one and
      whose username is free keeps the store well formed. */
  lemma SaveUserPreservesWellFormed(st: Store, u: User)
    requires WellFormed(st)
    requires u.id == st.nextUserId && UserResolves(st, u)
    requires forall k :: k in st.users ==> st.users[k].username != u.username
    ensures WellFormed(st.(users := st.users[u.id := u], nextUserId := st.nextUserId + 1))
  {
    var st' := st.(users := st.users[u.id := u], nextUserId := st.nextUserId + 1);
    assert forall k :: k in st'.users ==> UserResolves(st', st'.users[k]) by {
      forall k | k in st'.users ensures UserResolves(st', st'.users[k]) {
        if k != u.id {
          assert UserResolves(st, st.users[k]);
        }
      }
    }
  }

  /** The `register` handler: `{ userId }` of the saved user, or `null`. */
  function Register(st: Store, username: string, password: string,
                    roles: Option<seq<Id>>, accesses: Option<seq<Id>>, salt: Salt): (o: Outcome<Option<Id>>)
    requires WellFormed(st)
    ensures o.result.Ok? && o.result.value.Some? ==>
              var id := o.result.value.value;
              && id == st.nextUserId && id !in st.users && id in o.store.users
              && var u := o.store.users[id];
              && u.id == id && u.username == username
              && u.password == Hash(password, salt) && Verify(u.password, password)
              && (forall r :: r in u.roles <==> roles.Some? && r in roles.value)
              && (forall k :: k in u.accesses <==> accesses.Some? && k in accesses.value)
              && o.store == st.(users := st.users[id := u], nextUserId := st.nextUserId + 1)
    ensures o.result == Ok(None) <==> !Resolvable(st.roles.Keys, roles) || !Resolvable(st.accesses.Keys, accesses)
    ensures o.result.Err? <==> Resolvable(st.roles.Keys, roles) && Resolvable(st.accesses.Keys, accesses)
                                 && exists k :: k in st.users && st.users[k].username == username
    ensures o.result.Err? ==> o.result.error == DuplicateUsername(username)
    ensures !(o.result.Ok? && o.result.value.Some?) ==> o.store == st
    ensures WellFormed(o.store)
  {
    RegisterUserPreservesWellFormed(st, username, password, roles, accesses, salt);
    var saved := RegisterUser(st, username, password, roles, accesses, salt);
    match saved.result
    case Err(fault) => Outcome(Err(fault), saved.store)
    case Ok(None) => Outcome(Ok(None), saved.store)
    case Ok(Some(user)) => Outcome(Ok(Some(user.id)), saved.store)
  }

  // ----------------------------------------------------------------- login

  /** `verifyUser`: the user with this username, when the password verifies
      against the stored hash; `None` otherwise. */
  function VerifyUser(st: Store, username: string, password: string): (r: Option<User>)
    requires WellFormed(st)
    ensures r.Some? <==> exists k :: k in st.users && st.users[k].username == username
                                      && Verify(st.users[k].password, password)
    ensures r.Some? ==> r.value.id in st.users && st.users[r.value.id] == r.value
    ensures r.Some? ==> r.value.username == username && Verify(r.value.password, password)
  {
    match FindByUsername(st.users, username)
    case None => None
    case Some(user) => if Verify(user.password, password) then Some(user) else None
  }

  /** The `login` handler: a token for `{ id, username }` of the verified
      user, or `null`. */
  function Login(st: Store, username: string, password: string): (r: Option<Token>)
    requires WellFormed(st)
    ensures r.None? <==> forall k :: (k in st.users && st.users[k].username == username)
                                      ==> !Verify(st.users[k].password, password)
    ensures r.Some? ==> exists k :: k in st.users && st.users[k].username == username
                                     && VerifyToken(r.value) == Some(Claims(k, username))
  {
    match VerifyUser(st, username, password)
    case None => None
    case Some(user) => Some(SignToken(Claims(user.id, user.username)))
  }

  /** Login fails the same way for an unknown username and for a wrong
      password. */
  lemma LoginUniformFailure(st: Store, unknown: string, known: string, wrong: string)
    requires WellFormed(st)
    requires forall k :: k in st.users ==> st.users[k].username != unknown
    requires exists k :: k in st.users && st.users[k].username == known && !Verify(st.users[k].password, wrong)
    ensures Login(st, unknown, wrong) == Login(st, known, wrong) == None
  {
  }

  /** Log in, ask: a stored user who logs in with a password that verifies
      gets the token for its id and username, and that token is decided
      against exactly that user's capability set. */
  lemma LoginThenCheck(st: Store, id: Id, password: string, abilities: seq<Permission>)
    requires WellFormed(st) && id in st.users && Verify(st.users[id].password, password)
    ensures var username := st.users[id].username;
            && Login(st, username, password) == Some(SignToken(Claims(id, username)))
            && CheckAbility(st, SignToken(Claims(id, username)), abilities)
                 == Ok(Decision(id, forall i :: 0 <= i < |abilities| ==>
                                      abilities[i] in Capabilities(st, st.users[id])))
  {
    UsernameLookupUnique(st, st.users[id].username, id);
    TokenRoundTrip(Claims(id, st.users[id].username));
  }

  /** Register, log in, ask: a freshly registered user logs in with the
      password it chose, and the token it gets back is decided against
      exactly that user's capability set. */
  lemma RegisterLoginCheck(st: Store, username: string, password: string,
                                              roles: Option<seq<Id>>, accesses: Option<seq<Id>>,
                                              salt: Salt, abilities: seq<Permission>)
    requires WellFormed(st)
    requires Register(st, username, password, roles, accesses, salt).result.Ok?
    requires Register(st, username, password, roles, accesses, salt).result.value.Some?
    ensures var o := Register(st, username, password, roles, accesses, salt);
            var id := o.result.value.value;
            && Login(o.store, username, password) == Some(SignToken(Claims(id, username)))
            && CheckAbility(o.store, SignToken(Claims(id, username)), abilities)
                 == Ok(Decision(id, forall i :: 0 <= i < |abilities| ==>
                                      abilities[i] in Capabilities(o.store, o.store.users[id])))
  {
    var o := Register(st, username, password, roles, accesses, salt);
    LoginThenCheck(o.store, o.result.value.value, password, abilities);
  }
}

=== FILE: entities.dfy ===
/** The five persisted entities (the entity files under `auth-service/entity`) and the store
    that holds them.

    The store is an immutable record with one table per entity, each a map
    from primary key to row.  A relation is held as the ids it points at:
    `Access.action` and `Access.subject` are many-to-one references, and the
    many-to-many join tables of `Role.accesses`, `User.roles` and
    `User.accesses` are sequences of ids in the order they load.  The
    one-to-many `Action.accesses` and `Subject.accesses` are the inverse
    sides and are derived, not stored.  `WellFormed` collects the primary-key,
    unique and foreign-key constraints the schema enforces. */
module Entities {

  import opened Results
  import opened Passwords

  /** A primary key (`@PrimaryGeneratedColumn() id: number`). */
  type Id = int

  datatype Action = Action(id: Id, name: string)

  datatype Subject = Subject(id: Id, name: string)

  /** A named grant of exactly one action on exactly one subject. */
  datatype Access = Access(id: Id, name: string, action: Id, subject: Id)

  /** A named bundle of accesses; it holds accesses only, never roles. */
  datatype Role = Role(id: Id, name: string, accesses: seq<Id>)

  /** `password` holds the stored hash, never the plaintext. */
  datatype User = User(id: Id, username: string, password: PasswordHash, roles: seq<Id>, accesses: seq<Id>)

  /** All five tables, plus the next value of the `users.id` sequence. */
  datatype Store = Store(
    actions: map<Id, Action>,
    subjects: map<Id, Subject>,
    accesses: map<Id, Access>,
    roles: map<Id, Role>,
    users: map<Id, User>,
    nextUserId: Id)

  /** What a store-facing call throws instead of returning. */
  datatype Fault =
    | UserNotFound(id: Id)                 // a property read on the `undefined` a failed lookup gives
    | DuplicateUsername(username: string)  // the `@Unique(['username'])` constraint rejects a save
    | NullUser                             // a property write on the `null` a rejected registration gives

  /** No id occurs twice (the composite primary key of a join table). */
  ghost predicate Distinct(ids: seq<Id>)
  {
    forall i, j :: 0 <= i < j < |ids| ==> ids[i] != ids[j]
  }

  /** Every row is stored under its own id. */
  ghost predicate KeysMatch(st: Store)
  {
    && (forall k :: k in st.actions ==> st.actions[k].id == k)
    && (forall k :: k in st.subjects ==> st.subjects[k].id == k)
    && (forall k :: k in st.accesses ==> st.accesses[k].id == k)
    && (forall k :: k in st.roles ==> st.roles[k].id == k)
    && (forall k :: k in st.users ==> st.users[k].id == k)
  }

  ghost predicate UniqueActionNames(actions: map<Id, Action>)
  {
    forall j, k :: j in actions && k in actions && actions[j].name == actions[k].name ==> j == k
  }

  ghost predicate UniqueSubjectNames(subjects: map<Id, Subject>)
  {
    forall j, k :: j in subjects && k in subjects && subjects[j].name == subjects[k].name ==> j == k
  }

  ghost predicate UniqueAccessNames(accesses: map<Id, Access>)
  {
    forall j, k :: j in accesses && k in accesses && accesses[j].name == accesses[k].name ==> j == k
  }

  /** No two accesses grant the same action on the same subject. */
  ghost predicate UniqueAccessPairs(accesses: map<Id, Access>)
  {
    forall j, k ::
      (j in accesses && k in accesses
       && accesses[j].action == accesses[k].action
       && accesses[j].subject == accesses[k].subject) ==> j == k
  }

  ghost predicate UniqueRoleNames(roles: map<Id, Role>)
  {
    forall j, k :: j in roles && k in roles && roles[j].name == roles[k].name ==> j == k
  }

  ghost predicate UniqueUsernames(users: map<Id, User>)
  {
    forall j, k :: j in users && k in users && users[j].username == users[k].username ==> j == k
  }

  /** Every access points at a stored action and a stored subject. */
  ghost predicate AccessesResolve(st: Store)
  {
    forall k :: k in st.accesses ==> st.accesses[k].action in st.actions && st.accesses[k].subject in st.subjects
  }

  /** Every id in the list names a stored access. */
  ghost predicate AccessIdsResolve(st: Store, ids: seq<Id>)
  {
    forall k :: k in ids ==> k in st.accesses
  }

  /** Every id in the list names a stored role. */
  ghost predicate RoleIdsResolve(st: Store, ids: seq<Id>)
  {
    forall k :: k in ids ==> k in st.roles
  }

  /** Each role's join rows are distinct and point at stored accesses. */
  ghost predicate RolesResolve(st: Store)
  {
    forall k :: k in st.roles ==> AccessIdsResolve(st, st.roles[k].accesses) && Distinct(st.roles[k].accesses)
  }

  /** A user's join rows are distinct and point at stored roles and accesses. */
  ghost predicate UserResolves(st: Store, u: User)
  {
    && RoleIdsResolve(st, u.roles) && Distinct(u.roles)
    && AccessIdsResolve(st, u.accesses) && Distinct(u.accesses)
  }

  ghost predicate UsersResolve(st: Store)
  {
    forall k :: k in st.users ==> UserResolves(st, st.users[k])
  }

  /** The users sequence has not yet handed out any stored id. */
  ghost predicate SequenceAhead(st: Store)
  {
    forall k :: k in st.users ==> k < st.nextUserId
  }

  /** The schema's constraints: primary keys, the `@Unique` constraints of the
      five entities and the foreign keys of every relation. */
  ghost predicate WellFormed(st: Store)
  {
    && KeysMatch(st)
    && UniqueActionNames(st.actions)
    && UniqueSubjectNames(st.subjects)
    && UniqueAccessNames(st.accesses)
    && UniqueAccessPairs(st.accesses)
    && UniqueRoleNames(st.roles)
    && UniqueUsernames(st.users)
    && AccessesResolve(st)
    && RolesResolve(st)
    && UsersResolve(st)
    && SequenceAhead(st)
  }

  /** `User.findOne({ username })`: the user with that name, if any. */
  function FindByUsername(users: map<Id, User>, username: string): (r: Option<User>)
    requires UniqueUsernames(users)
    ensures r.Some? <==> exists k :: k in users && users[k].username == username
    ensures r.Some? ==> forall k :: k in users && users[k].username == username ==> r.value == users[k]
  {
    if exists k :: k in users && users[k].username == username then
      var k :| k in users && users[k].username == username;
      Some(users[k])
    else
      None
  }

  /** `Action.accesses`, the inverse side of `Access.action`. */
  function ActionAccesses(st: Store, action: Id): (ks: set<Id>)
    ensures ks <= st.accesses.Keys
    ensures forall k :: k in st.accesses ==> (k in ks <==> st.accesses[k].action == action)
  {
    set k | k in st.accesses && st.accesses[k].action == action
  }

  /** `Subject.accesses`, the inverse side of `Access.subject`. */
  function SubjectAccesses(st: Store, subject: Id): (ks: set<Id>)
    ensures ks <= st.accesses.Keys
    ensures forall k :: k in st.accesses ==> (k in ks <==> st.accesses[k].subject == subject)
  {
    set k | k in st.accesses && st.accesses[k].subject == subject
  }

  /** In a well-formed store the inverse sides partition the accesses: each
      access is listed by exactly one stored action and exactly one stored
      subject, namely the ones it points at. */
  lemma InverseSidesPartition(st: Store, k: Id)
    requires WellFormed(st)
    requires k in st.accesses
    ensures st.accesses[k].action in st.actions && k in ActionAccesses(st, st.accesses[k].action)
    ensures forall a :: k in ActionAccesses(st, a) ==> a == st.accesses[k].action
    ensures st.accesses[k].subject in st.subjects && k in SubjectAccesses(st, st.accesses[k].subject)
    ensures forall s :: k in SubjectAccesses(st, s) ==> s == st.accesses[k].subject
  {
  }

  /** An access is determined by its action and subject names: two stored
      accesses with equal action names and equal subject names are the same
      access, so de-duplicating by id and by name pair coincide. */
  lemma AccessDeterminedByNames(st: Store, j: Id, k: Id)
    requires WellFormed(st)
    requires j in st.accesses && k in st.accesses
    requires st.actions[st.accesses[j].action].name == st.actions[st.accesses[k].action].name
    requires st.subjects[st.accesses[j].subject].name == st.subjects[st.accesses[k].subject].name
    ensures j == k
  {
  }

  /** A lookup by username yields the only user with that name. */
  lemma UsernameLookupUnique(st: Store, username: string, k: Id)
    requires WellFormed(st)
    requires k in st.users && st.users[k].username == username
    ensures FindByUsername(st.users, username) == Some(st.users[k])
    ensures FindByUsername(st.users, username).value.id == k
  {
  }
}

=== FILE: jws.dfy ===
/** JWS compact tokens (section 7.1 of RFC 7515) signed with HMAC
    (section 3.2 of RFC 7518), as produced by `SignJWT` and checked by
    `jwtVerify` of the `jose` library.

    The MAC is symbolic: a signature is the term `Hmac(alg, key, header,
    payload)`, so a signature verifies under a key only when it was computed
    with that key over exactly that header and payload.  A string that does
    not parse as three segments is `Unparsable`. */
module Jws {

  import opened Results

  /** The `alg` header parameter.  Only the HMAC family can be checked with a
      symmetric secret.  `Unsecured` is `none`; `OtherAlg` names only
      algorithms outside `HS256`, `HS384`, `HS512` and `none`, so every header
      value has one representation. */
  datatype Alg = HS256 | HS384 | HS512 | Unsecured | OtherAlg(name: string)

  /** The JOSE protected header. */
  datatype Header = Header(alg: Alg)

  /** The JWT claims set the service signs: `{ id, username }`. */
  datatype Claims = Claims(id: int, username: string)

  /** A symmetric signing key. */
  datatype Key = Key(material: seq<bv8>)

  /** An HMAC signature over the signing input `header.payload`. */
  datatype Mac = Hmac(alg: Alg, key: Key, header: Header, payload: Claims)

  /** A token as received: either the three compact segments or text that
      does not parse as them. */
  datatype Token = Compact(header: Header, payload: Claims, signature: Mac) | Unparsable(text: string)

  /** What `jwtVerify` resolves to. */
  datatype Verified = Verified(payload: Claims, protectedHeader: Header)

  predicate IsHmac(alg: Alg)
  {
    alg.HS256? || alg.HS384? || alg.HS512?
  }

  /** `new SignJWT(payload).setProtectedHeader({ alg }).sign(key)`. */
  function Sign(key: Key, alg: Alg, payload: Claims): (t: Token)
    requires IsHmac(alg)
    ensures t.Compact? && t.header.alg == alg && t.payload == payload
    ensures t.signature == Hmac(alg, key, t.header, payload)
  {
    Compact(Header(alg), payload, Hmac(alg, key, Header(alg), payload))
  }

  /** `jwtVerify(token, key)`: `None` where the library throws.  With a
      symmetric key it accepts whichever HMAC algorithm the header declares. */
  function JwtVerify(key: Key, token: Token): (r: Option<Verified>)
    ensures r.Some? <==> token.Compact? && IsHmac(token.header.alg)
                         && token.signature == Hmac(token.header.alg, key, token.header, token.payload)
    ensures r.Some? ==> r.value == Verified(token.payload, token.header)
  {
    match token
    case Unparsable(_) => None
    case Compact(header, payload, signature) =>
      if !IsHmac(header.alg) then None
      else if signature != Hmac(header.alg, key, header, payload) then None
      else Some(Verified(payload, header))
  }

  /** Signing then verifying under the same key gives back the payload and
      the header that was set. */
  lemma SignVerifies(key: Key, alg: Alg, payload: Claims)
    requires IsHmac(alg)
    ensures JwtVerify(key, Sign(key, alg, payload)) == Some(Verified(payload, Header(alg)))
  {
  }

  /** A token is accepted under a key exactly when it is the token that key
      signs for its own header algorithm and payload: nothing else forges. */
  lemma AcceptedIffSigned(key: Key, token: Token)
    ensures JwtVerify(key, token).Some? <==>
              token.Compact? && IsHmac(token.header.alg) && token == Sign(key, token.header.alg, token.payload)
  {
  }
}

=== FILE: passwords.dfy ===
/** The credential verifier: argon2id password hashing (RFC 9106) as used by
    `registerUser` and `verifyUser`.

    The hash is modelled symbolically (perfect cryptography): a stored hash
    is the term `Argon2id(salt, password)`, which no function of this model
    ever takes apart except `Verify`.  The salt is the randomness the library
    draws on every call, so it is a parameter of `Hash`. */
module Passwords {

  /** The random salt drawn by one call of `hash`. */
  datatype Salt = Salt(bytes: seq<bv8>)

  /** An encoded argon2id hash, as stored in the `password` column. */
  datatype PasswordHash = Argon2id(salt: Salt, secret: string)

  /** `hash(password, { type: argon2id })` with the salt it drew. */
  function Hash(password: string, salt: Salt): (h: PasswordHash)
    ensures Verify(h, password)
    ensures h.salt == salt
  {
    Argon2id(salt, password)
  }

  /** `verify(hash, candidate)`: recomputes the hash of the candidate under
      the stored salt and compares. */
  predicate Verify(h: PasswordHash, candidate: string)
  {
    h == Argon2id(h.salt, candidate)
  }

  /** A hash verifies exactly the password it was made from. */
  lemma VerifyHashIff(password: string, candidate: string, salt: Salt)
    ensures Verify(Hash(password, salt), candidate) <==> candidate == password
  {
  }

  /** The same password hashed under two different salts gives two different
      stored values. */
  lemma HashSalted(password: string, s1: Salt, s2: Salt)
    requires s1 != s2
    ensures Hash(password, s1) != Hash(password, s2)
  {
  }
}

=== FILE: results.dfy ===
/** The Option and Result types the model shares: `Option` stands for
    the source's `null`-or-value returns, `Result` for a call that either
    returns or throws. */
module Results {

  /** A value or the source's `null`. */
  datatype Option<+T> = None | Some(value: T)

  /** A returned value or a thrown fault. */
  datatype Result<+T, +E> = Ok(value: T) | Err(error: E)
}

=== FILE: scenario.dfy ===
/** An end-to-end scenario over the seeded store: a new user registered with the
    `read book` access logs in and is allowed to read books and refused
    writing them. */
module Scenario {

  import opened Results
  import opened Jws
  import opened Entities
  import opened Abilities
  import opened AuthService
  import opened Seeding
  import opened Passwords

  /** The store after `alice` registers with access 1 into the seeded store. */
  function WithAlice(seeded: Store, salt: Salt): Store
  {
    var id := seeded.nextUserId;
    seeded.(users := seeded.users[id := User(id, "alice", Hash("pw1", salt), [], [1])], nextUserId := id + 1)
  }

  /** Registering `alice` with access 1 into a well-formed store holding
      that access and no `alice` saves her under the next id. */
  lemma AliceSaved(seeded: Store, salt: Salt)
    requires WellFormed(seeded) && 1 in seeded.accesses
    requires forall k :: k in seeded.users ==> seeded.users[k].username != "alice"
    ensures Register(seeded, "alice", "pw1", None, Some([1]), salt)
              == Outcome(Ok(Some(seeded.nextUserId)), WithAlice(seeded, salt))
    ensures WellFormed(WithAlice(seeded, salt))
  {
    assert Distinct([1]);
    RegisterUserSaves(seeded, "alice", "pw1", None, Some([1]), salt);
    RegisterUserPreservesWellFormed(seeded, "alice", "pw1", None, Some([1]), salt);
  }

  /** Alice, granted the `read book` access directly, may read books only. */
  lemma AliceCapabilities(seeded: Store, salt: Salt)
    requires AccessesResolve(seeded) && 1 in seeded.accesses
    requires PermissionOf(seeded, seeded.accesses[1]) == Permission("read", "book")
    ensures AccessesResolve(WithAlice(seeded, salt))
    ensures Capabilities(WithAlice(seeded, salt), WithAlice(seeded, salt).users[seeded.nextUserId])
              == {Permission("read", "book")}
  {
    var after := WithAlice(seeded, salt);
    DirectReader(after, after.users[seeded.nextUserId], 1, Permission("read", "book"));
  }

  /** Registering `alice` with access 1 into the seeded store succeeds. */
  lemma AliceRegisters(st: Store, salts: (Salt, Salt, Salt), salt: Salt)
    requires WellFormed(st) && EmptyStore(st)
    ensures var seeded := SeededStore(st, salts);
            && WellFormed(seeded)
            && Register(seeded, "alice", "pw1", None, Some([1]), salt)
                 == Outcome(Ok(Some(seeded.nextUserId)), WithAlice(seeded, salt))
            && WellFormed(WithAlice(seeded, salt))
            && Capabilities(WithAlice(seeded, salt), WithAlice(seeded, salt).users[seeded.nextUserId])
                 == {Permission("read", "book")}
  {
    SeededWellFormed(st, salts);
    SeededTables(st, salts);
    var seeded := SeededStore(st, salts);
    AliceSaved(seeded, salt);
    AliceCapabilities(seeded, salt);
  }

  /** Alice logs in with her password and her token allows `read book` and
      refuses `write book`. */
  lemma AliceDecisions(seeded: Store, salt: Salt)
    requires WellFormed(WithAlice(seeded, salt))
    requires Capabilities(WithAlice(seeded, salt), WithAlice(seeded, salt).users[seeded.nextUserId])
               == {Permission("read", "book")}
    ensures var after := WithAlice(seeded, salt);
            var id := seeded.nextUserId;
            && Login(after, "alice", "pw1") == Some(SignToken(Claims(id, "alice")))
            && CheckAbility(after, SignToken(Claims(id, "alice")), [Permission("read", "book")])
                 == Ok(Decision(id, true))
            && CheckAbility(after, SignToken(Claims(id, "alice")), [Permission("write", "book")])
                 == Ok(Decision(id, false))
  {
    var after := WithAlice(seeded, salt);
    var id := seeded.nextUserId;
    assert after.users[id].username == "alice" && Verify(after.users[id].password, "pw1");
    LoginThenCheck(after, id, "pw1", [Permission("read", "book")]);
    LoginThenCheck(after, id, "pw1", [Permission("write", "book")]);
  }

  /** After seeding an empty store, `alice` registers with access 1, logs
      in with her password, and `checkAbility` with her token allows
      `read book` and refuses `write book`. */
  lemma ReadBookScenario(st: Store, salts: (Salt, Salt, Salt), salt: Salt)
    requires WellFormed(st) && EmptyStore(st)
    ensures var seeded := Started(st, salts).store;
            && WellFormed(seeded)
            && var o := Register(seeded, "alice", "pw1", None, Some([1]), salt);
            && o.result.Ok? && o.result.value.Some?
            && WellFormed(o.store)
            && var id := o.result.value.value;
            && Login(o.store, "alice", "pw1") == Some(SignToken(Claims(id, "alice")))
            && CheckAbility(o.store, SignToken(Claims(id, "alice")), [Permission("read", "book")])
                 == Ok(Decision(id, true))
            && CheckAbility(o.store, SignToken(Claims(id, "alice")), [Permission("write", "book")])
                 == Ok(Decision(id, false))
  {
    StartedFromEmpty(st, salts);
    AliceRegisters(st, salts, salt);
    AliceDecisions(SeededStore(st, salts), salt);
  }
}

=== FILE: seeding.dfy ===
/** The bootstrap seeding the service runs once it has started: a fixed
    reference dataset written level by level, each level only when the
    table it starts with is empty.

    The three registrations draw three random salts, which are parameters. */
module Seeding {

  import opened Results
  import opened Passwords
  import opened Entities
  import opened Abilities
  import opened AuthService

  /** The password every seeded user is registered with. */
  const SeedPassword: string := "12345"

  /** The `read` action and the `book`, `magazine` and `report` subjects. */
  function WithAction(st: Store): Store
  {
    st.(actions := st.actions[1 := Action(1, "read")])
  }

  function WithSubjects(st: Store): Store
  {
    st.(subjects := st.subjects[1 := Subject(1, "book")][2 := Subject(2, "magazine")][3 := Subject(3, "report")])
  }

  /** One access per subject, all granting `read`. */
  function WithAccesses(st: Store): Store
  {
    st.(accesses := st.accesses[1 := Access(1, "read book", 1, 1)]
                               [2 := Access(2, "read magazine", 1, 2)]
                               [3 := Access(3, "read report", 1, 3)])
  }

  /** The `employee` role, bundling `read report`. */
  function WithRole(st: Store): Store
  {
    st.(roles := st.roles[1 := Role(1, "employee", [3])])
  }

  /** The three demonstration users: `bookReader` and `magazineReader` with
      one direct access each, `reportReader` through the `employee` role.
      A registration that throws ends the seeding with that fault; one that
      returns `null` makes the final log statement throw. */
  function SeedUsers(st: Store, salts: (Salt, Salt, Salt)): (o: Outcome<()>)
    requires SequenceAhead(st)
    ensures o.store.(users := st.users, nextUserId := st.nextUserId) == st
  {
    var book := RegisterUser(st, "bookReader", SeedPassword, Some([]), Some([1]), salts.0);
    if book.result.Err? then Outcome(Err(book.result.error), book.store)
    else
      var magazine := RegisterUser(book.store, "magazineReader", SeedPassword, Some([]), Some([2]), salts.1);
      if magazine.result.Err? then Outcome(Err(magazine.result.error), magazine.store)
      else
        var report := RegisterUser(magazine.store, "reportReader", SeedPassword, Some([1]), None, salts.2);
        if report.result.Err? then Outcome(Err(report.result.error), report.store)
        else if book.result.value.None? || magazine.result.value.None? || report.result.value.None? then
          Outcome(Err(NullUser), report.store)
        else
          Outcome(Ok(()), report.store)
  }

  /** `started()`: seed actions, subjects, accesses, the role and the users,
      each level guarded by its table being empty and nested inside the
      previous one. */
  function Started(st: Store, salts: (Salt, Salt, Salt)): (o: Outcome<()>)
    requires SequenceAhead(st)
    ensures |st.actions| > 0 ==> o == Outcome(Ok(()), st)
    ensures |o.store.actions| > 0
  {
    if |st.actions| != 0 then Outcome(Ok(()), st)
    else
      var st1 := WithAction(st);
      if |st1.subjects| != 0 then Outcome(Ok(()), st1)
      else
        var st2 := WithSubjects(st1);
        if |st2.accesses| != 0 then Outcome(Ok(()), st2)
        else
          var st3 := WithAccesses(st2);
          if |st3.roles| != 0 then Outcome(Ok(()), st3)
          else
            var st4 := WithRole(st3);
            if |st4.users| != 0 then Outcome(Ok(()), st4)
            else
              var o := SeedUsers(st4, salts);
              assert 1 in o.store.actions;
              o
  }

  /** Seeding keeps the store well formed: each level writes into an empty
      table only, and the registrations keep it well formed themselves. */
  lemma StartedPreservesWellFormed(st: Store, salts: (Salt, Salt, Salt))
    requires WellFormed(st)
    ensures WellFormed(Started(st, salts).store)
  {
    if |st.actions| == 0 {
      var st1 := WithAction(st);
      ActionLevel(st);
      if |st1.subjects| == 0 {
        var st2 := WithSubjects(st1);
        SubjectLevel(st1);
        if |st2.accesses| == 0 {
          var st3 := WithAccesses(st2);
          AccessLevel(st2);
          if |st3.roles| == 0 {
            var st4 := WithRole(st3);
            RoleLevel(st3);
            if |st4.users| == 0 {
              SeedUsersPreservesWellFormed(st4, salts);
            }
          }
        }
      }
    }
  }

  lemma SeedUsersPreservesWellFormed(st: Store, salts: (Salt, Salt, Salt))
    requires WellFormed(st)
    ensures WellFormed(SeedUsers(st, salts).store)
  {
    var book := RegisterUser(st, "bookReader", SeedPassword, Some([]), Some([1]), salts.0);
    RegisterUserPreservesWellFormed(st, "bookReader", SeedPassword, Some([]), Some([1]), salts.0);
    var magazine := RegisterUser(book.store, "magazineReader", SeedPassword, Some([]), Some([2]), salts.1);
    RegisterUserPreservesWellFormed(book.store, "magazineReader", SeedPassword, Some([]), Some([2]), salts.1);
    RegisterUserPreservesWellFormed(magazine.store, "reportReader", SeedPassword, Some([1]), None, salts.2);
  }

  /** In a well-formed store without actions there are no accesses, since
      every access points at an action. */
  lemma NoActionsNoAccesses(st: Store)
    requires WellFormed(st) && |st.actions| == 0
    ensures |st.accesses| == 0
  {
    assert st.actions == map[];
    assert forall k :: k !in st.accesses;
    assert st.accesses.Keys == {};
  }

  lemma ActionLevel(st: Store)
    requires WellFormed(st) && |st.actions| == 0
    ensures WellFormed(WithAction(st)) && |WithAction(st).accesses| == 0
  {
    NoActionsNoAccesses(st);
    assert st.actions == map[];
  }

  lemma SubjectLevel(st: Store)
    requires WellFormed(st) && |st.subjects| == 0 && |st.accesses| == 0
    ensures WellFormed(WithSubjects(st))
  {
    assert st.subjects == map[];
    assert st.accesses == map[];
  }

  /** The three seeded accesses. */
  function SeededAccesses(): map<Id, Access>
  {
    map[1 := Access(1, "read book", 1, 1), 2 := Access(2, "read magazine", 1, 2), 3 := Access(3, "read report", 1, 3)]
  }

  lemma SeededAccessesUnique()
    ensures UniqueAccessNames(SeededAccesses()) && UniqueAccessPairs(SeededAccesses())
  {
  }

  lemma AccessLevel(st: Store)
    requires WellFormed(st) && |st.accesses| == 0
    requires 1 in st.actions && 1 in st.subjects && 2 in st.subjects && 3 in st.subjects
    ensures WellFormed(WithAccesses(st))
  {
    assert st.accesses == map[];
    var st' := WithAccesses(st);
    assert st'.accesses == SeededAccesses();
    SeededAccessesUnique();
    GrowingAccessesKeepReferences(st, st');
  }

  /** Adding accesses keeps every role's and every user's references valid. */
  lemma GrowingAccessesKeepReferences(st: Store, st': Store)
    requires RolesResolve(st) && UsersResolve(st)
    requires st' == st.(accesses := st'.accesses) && st.accesses.Keys <= st'.accesses.Keys
    ensures RolesResolve(st') && UsersResolve(st')
  {
    forall k | k in st'.roles ensures AccessIdsResolve(st', st'.roles[k].accesses) {
      assert AccessIdsResolve(st, st.roles[k].accesses);
    }
    forall k | k in st'.users ensures UserResolves(st', st'.users[k]) {
      assert UserResolves(st, st.users[k]);
    }
  }

  lemma RoleLevel(st: Store)
    requires WellFormed(st) && |st.roles| == 0 && 3 in st.accesses
    ensures WellFormed(WithRole(st))
  {
    assert st.roles == map[];
    var st' := WithRole(st);
    assert UsersResolve(st') by {
      forall k | k in st'.users ensures UserResolves(st', st'.users[k]) {
        assert UserResolves(st, st.users[k]);
      }
    }
  }

  /** A store holding no rows at all. */
  ghost predicate EmptyStore(st: Store)
  {
    |st.actions| == 0 && |st.subjects| == 0 && |st.accesses| == 0 && |st.roles| == 0 && |st.users| == 0
  }

  /** Seeding twice is seeding once: the second run finds an action and
      writes nothing. */
  lemma SeedingIdempotent(st: Store, first: (Salt, Salt, Salt), second: (Salt, Salt, Salt))
    requires WellFormed(st)
    ensures Started(Started(st, first).store, second) == Outcome(Ok(()), Started(st, first).store)
  {
    StartedPreservesWellFormed(st, first);
  }

  /** The seeded reference data below the users: what the guarded levels
      write into a store without rows. */
  function Reference(st: Store): Store
  {
    WithRole(WithAccesses(WithSubjects(WithAction(st))))
  }

  /** The user a seeded registration saves. */
  function SeededUser(id: Id, username: string, roles: seq<Id>, accesses: seq<Id>, salt: Salt): User
  {
    User(id, username, Hash(SeedPassword, salt), roles, accesses)
  }

  /** From a store without rows, the guarded levels all run and hand a well
      formed store with no users to the registrations. */
  lemma SeedReachesUsers(st: Store, salts: (Salt, Salt, Salt))
    requires WellFormed(st) && EmptyStore(st)
    ensures WellFormed(Reference(st)) && |Reference(st).users| == 0
    ensures Started(st, salts) == SeedUsers(Reference(st), salts)
  {
    ActionLevel(st);
    SubjectLevel(WithAction(st));
    AccessLevel(WithSubjects(WithAction(st)));
    RoleLevel(WithAccesses(WithSubjects(WithAction(st))));
  }

  /** The store seeding leaves behind when it starts from no rows: the
      reference data and the three demonstration users under the next three
      ids. */
  function SeededStore(st: Store, salts: (Salt, Salt, Salt)): Store
  {
    WithSeededUsers(Reference(st), salts)
  }

  /** The three demonstration users saved under the next three ids. */
  function WithSeededUsers(st: Store, salts: (Salt, Salt, Salt)): Store
  {
    var n := st.nextUserId;
    st.(users := st.users[n := SeededUser(n, "bookReader", [], [1], salts.0)]
                         [n + 1 := SeededUser(n + 1, "magazineReader", [], [2], salts.1)]
                         [n + 2 := SeededUser(n + 2, "reportReader", [1], [], salts.2)],
        nextUserId := n + 3)
  }

  /** With no users yet, the accesses 1 and 2 and the role 1 stored, the
      three registrations all succeed, in order. */
  lemma SeedUsersSucceed(st: Store, salts: (Salt, Salt, Salt))
    requires SequenceAhead(st) && st.users == map[]
    requires 1 in st.accesses && 2 in st.accesses && 1 in st.roles
    ensures SeedUsers(st, salts) == Outcome(Ok(()), WithSeededUsers(st, salts))
  {
    assert Distinct([1]) && Distinct([2]) && Distinct([]);
    RegisterUserSaves(st, "bookReader", SeedPassword, Some([]), Some([1]), salts.0);
    var s1 := RegisterUser(st, "bookReader", SeedPassword, Some([]), Some([1]), salts.0).store;
    RegisterUserSaves(s1, "magazineReader", SeedPassword, Some([]), Some([2]), salts.1);
    var s2 := RegisterUser(s1, "magazineReader", SeedPassword, Some([]), Some([2]), salts.1).store;
    RegisterUserSaves(s2, "reportReader", SeedPassword, Some([1]), None, salts.2);
  }

  /** Seeding an empty store succeeds and leaves exactly the seeded store. */
  lemma StartedFromEmpty(st: Store, salts: (Salt, Salt, Salt))
    requires WellFormed(st) && EmptyStore(st)
    ensures Started(st, salts) == Outcome(Ok(()), SeededStore(st, salts))
  {
    SeedReachesUsers(st, salts);
    assert Reference(st).users == map[];
    SeedUsersSucceed(Reference(st), salts);
  }

  /** The seeded store is well formed. */
  lemma SeededWellFormed(st: Store, salts: (Salt, Salt, Salt))
    requires WellFormed(st) && EmptyStore(st)
    ensures WellFormed(SeededStore(st, salts))
  {
    StartedFromEmpty(st, salts);
    StartedPreservesWellFormed(st, salts);
  }

  /** The tables of the seeded store, row by row. */
  lemma SeededTables(st: Store, salts: (Salt, Salt, Salt))
    requires EmptyStore(st)
    ensures var s := SeededStore(st, salts);
            var n := st.nextUserId;
            && s.actions == map[1 := Action(1, "read")]
            && s.subjects == map[1 := Subject(1, "book"), 2 := Subject(2, "magazine"), 3 := Subject(3, "report")]
            && s.accesses == SeededAccesses()
            && s.roles == map[1 := Role(1, "employee", [3])]
            && s.users.Keys == {n, n + 1, n + 2}
            && s.users[n] == SeededUser(n, "bookReader", [], [1], salts.0)
            && s.users[n + 1] == SeededUser(n + 1, "magazineReader", [], [2], salts.1)
            && s.users[n + 2] == SeededUser(n + 2, "reportReader", [1], [], salts.2)
  {
    assert st.users == map[] && st.actions == map[] && st.subjects == map[] && st.accesses == map[] && st.roles == map[];
  }

  /** In the seeded store `bookReader` may read books, `magazineReader`
      magazines, and `reportReader`, who holds the `employee` role and no
      direct access, reports. */
  lemma SeededCapabilities(st: Store, salts: (Salt, Salt, Salt))
    requires EmptyStore(st)
    ensures var s := SeededStore(st, salts);
            var n := st.nextUserId;
            && AccessesResolve(s)
            && s.users.Keys == {n, n + 1, n + 2}
            && s.users[n].username == "bookReader"
            && s.users[n + 1].username == "magazineReader"
            && s.users[n + 2].username == "reportReader"
            && Capabilities(s, s.users[n]) == {Permission("read", "book")}
            && Capabilities(s, s.users[n + 1]) == {Permission("read", "magazine")}
            && s.users[n + 2].roles == [1] && s.users[n + 2].accesses == [] && s.roles[1].name == "employee"
            && Capabilities(s, s.users[n + 2]) == {Permission("read", "report")}
  {
    SeededTables(st, salts);
    var s := SeededStore(st, salts);
    var n := st.nextUserId;
    SeededAccessesResolve(s);
    DirectReader(s, s.users[n], 1, Permission("read", "book"));
    DirectReader(s, s.users[n + 1], 2, Permission("read", "magazine"));
    RoleReader(s, s.users[n + 2], 1, 3, Permission("read", "report"));
  }

  /** The seeded accesses point at the seeded action and subjects, and
      contribute the pairs their names say. */
  lemma SeededAccessesResolve(s: Store)
    requires s.actions == map[1 := Action(1, "read")]
    requires s.subjects == map[1 := Subject(1, "book"), 2 := Subject(2, "magazine"), 3 := Subject(3, "report")]
    requires s.accesses == SeededAccesses()
    ensures AccessesResolve(s)
    ensures PermissionOf(s, s.accesses[1]) == Permission("read", "book")
    ensures PermissionOf(s, s.accesses[2]) == Permission("read", "magazine")
    ensures PermissionOf(s, s.accesses[3]) == Permission("read", "report")
  {
  }

  /** A user granted one access directly and no role. */
  lemma DirectReader(s: Store, u: User, k: Id, p: Permission)
    requires AccessesResolve(s) && k in s.accesses && PermissionOf(s, s.accesses[k]) == p
    requires u.accesses == [k] && u.roles == []
    ensures Capabilities(s, u) == {p}
  {
    assert EffectiveAccessIds(s, u) == {k};
    OneAccessCapability(s, u, k, p);
  }

  /** A user granted one access through one role and nothing directly. */
  lemma RoleReader(s: Store, u: User, r: Id, k: Id, p: Permission)
    requires AccessesResolve(s) && k in s.accesses && PermissionOf(s, s.accesses[k]) == p
    requires u.accesses == [] && u.roles == [r] && r in s.roles && s.roles[r].accesses == [k]
    ensures Capabilities(s, u) == {p}
  {
    OnlyThroughRole(s, u, r, k);
    OneAccessCapability(s, u, k, p);
  }

  /** A user whose effective accesses are one stored access has exactly that
      access's pair as capability set. */
  lemma OneAccessCapability(st: Store, u: User, k: Id, p: Permission)
    requires AccessesResolve(st) && k in st.accesses
    requires EffectiveAccessIds(st, u) == {k}
    requires PermissionOf(st, st.accesses[k]) == p
    ensures Capabilities(st, u) == {p}
  {
  }

  /** A user with no direct access and one role bundling one access is
      granted exactly that access. */
  lemma OnlyThroughRole(st: Store, u: User, r: Id, k: Id)
    requires u.accesses == [] && u.roles == [r]
    requires r in st.roles && st.roles[r].accesses == [k]
    ensures EffectiveAccessIds(st, u) == {k}
  {
    forall j | j in EffectiveAccessIds(st, u) ensures j == k {
      var r' :| r' in u.roles && r' in st.roles && j in st.roles[r'].accesses;
    }
    assert r in u.roles && k in st.roles[r].accesses;
  }
}
